=== FILE: README.md ===
# CSV-to-Parquet loader: a Dafny model

The modelled system is a function that runs once per object-store write notification. It reads the
bucket and object key from the notification and derives a catalog database and table from the key's
path. It reads the CSV object, makes sure the database exists in the metadata catalog, and appends
the rows in columnar form under a fixed destination bucket.

The model keeps the logic the function itself owns and treats every library call as an opaque,
possibly failing step:

- `Keys` — Python's `str.split("/")` as `Split` (with `Join` as its inverse), and the path
  interpreter `ExtractDbAndTable`. The database is the third-from-last segment and the table the
  second-from-last. A key with fewer than three segments is rejected with an error carrying the key.
- `Events` — the notification payload as nested datatypes whose fields may be absent, and
  `ParseS3Event`. It reads only `Records[0]`, in the order bucket name then object key. It reports
  the first missing field or an empty record list. Key decoding is a parameter.
- `Catalog` — the catalog as the set of its database names, and `EnsureDatabaseExists`, which lists
  and creates only when absent. A listing or creation call may fail with a message.
- `Services` — the vocabulary of external calls (`ReadCsv`, `ListDatabases`, `CreateDatabase`,
  `ToParquet`) and `Effect`, the record of a step: the catalog afterwards, the calls issued in order,
  and the result.
- `Handler` — the input and output paths, and `LambdaHandler`, which composes parse, route, read,
  register and write. Any failure ends the invocation with that step's error.
- `Errors`, `Results` — the error taxonomy and the `Option`/`Result` wrappers.

The error kinds follow the code. A `KeyError` naming a missing field and an `IndexError` on an empty
`Records` list become `MalformedEvent(MissingField(name))` and `MalformedEvent(EmptyRecords)`. The
`ValueError` of a bad key becomes `InvalidKeyFormat(key)`. Any library exception becomes
`ServiceError(message)`. The outer handler logs and re-raises every exception unchanged, so it adds
no error kind of its own.

The destination bucket is the literal `dataeng-clean-zone-om77`, as in the code. It is not a
configuration input.

## Model

| member | source | states |
|---|---|---|
| `Keys.Split` | csv_to_parquet_lambda.py:26 | a split always has at least one segment, so even the empty key yields one (empty) segment |
| `Keys.SplitLength` | csv_to_parquet_lambda.py:26-27 | the number of segments is the number of '/' characters plus one, so "fewer than three parts" means "fewer than two slashes" |
| `Keys.SplitSegmentsFree` | csv_to_parquet_lambda.py:26 | no segment contains the separator |
| `Keys.SplitNoSeparator` | csv_to_parquet_lambda.py:26 | a string without the separator splits into itself alone |
| `Keys.SplitAround` | csv_to_parquet_lambda.py:26 | splitting `a + "/" + b` gives the segments of `a` followed by those of `b`; empty segments are kept |
| `Keys.JoinSplit` | csv_to_parquet_lambda.py:26 | joining the segments with '/' gives back the original key, so the split loses nothing |
| `Keys.SplitJoin` | csv_to_parquet_lambda.py:26 | splitting a join of separator-free segments gives back exactly those segments |
| `Keys.ExtractDbAndTable` | csv_to_parquet_lambda.py:22-29 | rejected exactly when the key has fewer than two '/'; the rejection carries the key; accepted names never contain '/' |
| `Keys.ExtractFromDecomposition` | csv_to_parquet_lambda.py:26-29 | any key of the form `<head><db>/<table>/<file>`, with whole segments and head empty or ending in '/', routes to exactly (db, table) |
| `Keys.ExtractDecomposes` | csv_to_parquet_lambda.py:26-29 | conversely, every accepted key has that form for the route it gets; with the lemma above, an if-and-only-if |
| `Keys.ExtractIgnoresFileName` | csv_to_parquet_lambda.py:29 | the last segment (file name) never influences the route: two files in one directory are both rejected or get the same route |
| `Keys.ExampleRoute` | csv_to_parquet_lambda.py:26-29 | `raw/sales/orders/x.csv` routes to database `sales`, table `orders` |
| `Keys.ExampleEmptyTable` | csv_to_parquet_lambda.py:26-29 | `a//f.csv` routes to database `a` with an empty table name |
| `Keys.ExampleOneSegment` | csv_to_parquet_lambda.py:27-28 | `file.csv` is rejected with its key |
| `Keys.ExtractRejectsTwoSegments` | csv_to_parquet_lambda.py:27-28 | every `<dir>/<file>` key with separator-free parts is rejected with its key |
| `Keys.ExampleTwoSegments` | csv_to_parquet_lambda.py:27-28 | `a/file.csv` is rejected with its key |
| `Events.ParseS3Event` | csv_to_parquet_lambda.py:9-20 | every failure is a malformed-event error; absent Records and empty Records give their own errors; on success the first record is exactly the record for the returned bucket and some raw key whose decoding is the returned key |
| `Events.ParseNotification` | csv_to_parquet_lambda.py:14-17 | a complete first record yields its bucket and its decoded key, whatever records follow |
| `Events.ParseReadsOnlyFirstRecord` | csv_to_parquet_lambda.py:14 | records after the first never change the result or the error |
| `Events.ParseReportsFirstMissingField` | csv_to_parquet_lambda.py:14-18 | the error names the first absent field in reading order (s3, bucket, name, object, key), whatever the later fields hold and whatever records follow |
| `Catalog.EnsureDatabaseExists` | csv_to_parquet_lambda.py:31-40 | the calls are exactly one listing followed by one create when the listing succeeds and the name is absent, and nothing else; on success the name is in the catalog; fails exactly on a listing fault or a create fault for an absent name, and then reports that call's own message unchanged and leaves the catalog as it was; never removes or adds any other name |
| `Catalog.EnsureIdempotent` | csv_to_parquet_lambda.py:35-40 | a second registration of the same name succeeds, issues no create and leaves the catalog unchanged |
| `Catalog.EnsureTwiceCreatesOnce` | csv_to_parquet_lambda.py:35-38 | two registrations of an absent name issue exactly one create between them |
| `Catalog.ListedAsWritten` | csv_to_parquet_lambda.py:35-36 | the presence test as written, over the cells of the listing's first 100 rows: for a listing within that limit it never misses a listed database name, and it succeeds only on a name or a description the listing holds |
| `Catalog.DescriptionMatchSkipsCreate` | csv_to_parquet_lambda.py:35-36 | as written, a database whose description equals the name makes the name count as present although no database has it |
| `Catalog.TruncatedListingMissesDatabase` | csv_to_parquet_lambda.py:35-36 | as written, a database beyond the first 100 listed counts as absent although it exists |
| `Catalog.RegistrationByNameIsExact` | csv_to_parquet_lambda.py:35-38 | testing presence by name alone always leaves that database behind, and creates it exactly when no listed database has that name |
| `Handler.InputPath` | csv_to_parquet_lambda.py:55 | the input path is `s3://`, then the bucket, then one '/', then the decoded key verbatim |
| `Handler.OutputPath` | csv_to_parquet_lambda.py:56 | the output path is `s3://dataeng-clean-zone-om77/`, then the database, one '/', and the table; nothing of the source object enters it |
| `Handler.InputPathSegments` | csv_to_parquet_lambda.py:55 | for a bucket name without '/', the input path splits into the scheme's two segments, the bucket, then the key's own segments |
| `Handler.InputPathDeterminesLocation` | csv_to_parquet_lambda.py:55 | distinct (bucket, key) pairs give distinct input paths, for bucket names without '/' |
| `Handler.OutputPathSegments` | csv_to_parquet_lambda.py:56 | the output path is exactly the segments `s3:`, empty, the destination bucket, the database and the table, so it ends in `db/table` |
| `Handler.OutputPathDeterminesRoute` | csv_to_parquet_lambda.py:56 | the output path determines the route: distinct routes are written to distinct places |
| `Handler.RouteOfInputPath` | csv_to_parquet_lambda.py:48-55 | for an accepted key and a bucket name without '/', the route read off the full input path equals the route of the key (a rejected key can still route on its input path) |
| `Handler.AppendRequest` | csv_to_parquet_lambda.py:65-72 | the write appends the read frame as a dataset registered under the route's database and table, at the route's output path |
| `Handler.AppendRequestSegments` | csv_to_parquet_lambda.py:56-70 | when the database and table names contain no '/', the write's path has exactly five segments, the last two being the database and the table the write registers |
| `Handler.RegisterAndWrite` | csv_to_parquet_lambda.py:63-75 | listing comes first; the write is issued at most once, last, with the append request for the frame and route, and only when the database is in the catalog; when the registration fails (a listing failure, or a failed create for an absent database) the step ends there with the registration's calls and error, no write and the catalog unchanged; when written, the result is exactly the write's answer (its result, or its message as a service error); every error is a service error; only the route's database can be added |
| `Handler.Load` | csv_to_parquet_lambda.py:61-75 | the read is the first call; a failed read is the only call, changes nothing and fails; the catalog is consulted only after a successful read; a write is issued last, only with the database present, and its answer is the result; a listing failure fails the load with no write; with a failing create the catalog is unchanged and a write happens only for a database that was already present; every error is a service error |
| `Handler.LambdaHandler` | csv_to_parquet_lambda.py:42-79 | the catalog only grows, by at most one name; event and key errors issue no call and change nothing; without a catalog listing nothing changes and the invocation fails; every write is last, in append mode, to the output path of its own route, with its database in the catalog; success ends with the write, and whenever a write is issued the result is exactly its answer (a failed write is never reported as success); a listing failure fails the invocation with no write; with a failing create the catalog is unchanged and a write happens only for a database that was already present; a notification that does not parse ends with the parser's error, and a key that does not route ends with `InvalidKeyFormat` of that key, both with no call and the catalog unchanged; once the event parses and the key routes, the first call reads the input path of the parsed object and every write carries the frame that read returned and the key's route |
| `Handler.HandlerSucceeds` | csv_to_parquet_lambda.py:46-75 | end to end with every service answering: the result is the write's result, the catalog gains the derived database, and the calls are read, list, create-if-absent, append-write |
| `Handler.LoadSucceeds` | csv_to_parquet_lambda.py:61-75 | the load stage with every service answering: result, catalog and exact call sequence |
| `Handler.HandlerReadFailureLeavesCatalog` | csv_to_parquet_lambda.py:61-63 | a failed CSV read aborts before registration: the read is the only call, the catalog is unchanged, the read's error is the result |
| `Handler.HandlerWriteFailureKeepsDatabase` | csv_to_parquet_lambda.py:63-79 | a failed write is not rolled back: the invocation fails, yet the registered database stays in the catalog |
| `Handler.SecondInvocationCreatesNothing` | csv_to_parquet_lambda.py:47-63 | re-running the same notification against the catalog the first run left, with the services answering as they did the first time, issues no create and leaves the catalog unchanged |
| `Handler.RetryCreatesNothing` | csv_to_parquet_lambda.py:47-63 | a retry of a notification whose first run reached the catalog issues no create and leaves the catalog unchanged, whatever the object store answers on the retry |
| `Handler.HandlerIsLoad` | csv_to_parquet_lambda.py:47-61 | once the event parses and the key routes, the invocation is the load of that object's input path for that route |
| `Handler.LoadOfPresentDatabase` | csv_to_parquet_lambda.py:61-72 | a load whose database is already present creates nothing and changes nothing, whatever the read and write answer |

## Left out

- Logging (csv_to_parquet_lambda.py:6-7, 19, 37, 40, 50-53, 58-59, 74, 78). It has no effect on results.
- The handler's `context` argument. It is never read.
- Form-URL decoding of the key (`unquote_plus`). It is a standard-library routine, so it is the parameter `decode`.
- CSV parsing, Parquet encoding, and what an append write does to the stored dataset. The library implements them, so the read and the write are parameters that return a frame, a write result or a failure message.
- The table entry that the write registers in the catalog. The catalog is modelled only as its set of database names.
- Payload fields of the wrong type (for example a `Records` that is not a list). Depending on the type they raise `TypeError`, `KeyError` or `IndexError` in the code, but the typed datatypes rule them out.
- Concurrent invocations, including two that create the same database at once. The code coordinates nothing.
- `Catalog.EnsureDatabaseExists`: the presence test is exact membership in the set of all database names, the corrected reading of the two rows under "## Findings". `Handler.LambdaHandler` and every lemma about the handler therefore describe the corrected program. For the code as written, a description equal to the database name can leave the write without its database, and a listing truncated at 100 rows can make a healthy run fail on a create for an existing database.
- `Catalog.EnsureDatabaseExists`: a failed create is assumed to leave the catalog unchanged, because the catalog service's atomicity is not visible here.

## Findings

| source | as written | input that shows it | evidently intended | confidence | as-written member | corrected member |
|---|---|---|---|---|---|---|
| csv_to_parquet_lambda.py:35-36 | `db_name not in current_databases.values` looks for the name among every cell of the listing (names and descriptions) | catalog holds only database `analytics` with description `sales`; key `raw/sales/orders/x.csv` gives no create, so the write to database `sales` targets a database that does not exist | look the name up among database names only | medium, not executed (depends on the listing being a name/description table) | `Catalog.ListedAsWritten`, `Catalog.DescriptionMatchSkipsCreate` | `Catalog.EnsureDatabaseExists` |
| csv_to_parquet_lambda.py:35 | the listing call is made with its default limit of 100 databases | 100 databases listed before an existing `sales`; key `raw/sales/orders/x.csv` issues a create for a database that exists, which fails the invocation | consult every database name | medium, not executed (depends on the listing's default limit) | `Catalog.TruncatedListingMissesDatabase` | `Catalog.EnsureDatabaseExists` |

=== FILE: catalog.dfy ===
/** The catalog registrar: making sure the database a load targets exists.
    The catalog is the set of its database names. */
module Catalog {
  import opened Results
  import opened Errors
  import opened Services

  /** Which catalog calls fail during an invocation, with the message each
      raises: listing the databases, and creating one. */
  datatype CatalogFaults = CatalogFaults(listing: Option<string>, creating: Option<string>)

  /** A catalog whose calls all succeed. */
  const Healthy: CatalogFaults := CatalogFaults(None, None)

  /** Lists the databases, then creates `name` only when it is not listed.
      A failing call ends the step with its message; a failed creation
      leaves the catalog as it was. */
  function EnsureDatabaseExists(catalog: set<string>, name: string, faults: CatalogFaults): (e: Effect<()>)
    ensures e.calls == [ListDatabases] + (if faults.listing.None? && name !in catalog
                                          then [CreateDatabase(name)] else [])
    ensures forall c :: c in e.calls ==> c == ListDatabases || c == CreateDatabase(name)
    ensures CreateDatabase(name) in e.calls <==> faults.listing.None? && name !in catalog
    ensures e.result.Err? <==> faults.listing.Some? || (name !in catalog && faults.creating.Some?)
    ensures e.result.Err? ==> e.catalog == catalog
    ensures e.result.Err? ==> e.result.error == ServiceError(if faults.listing.Some? then faults.listing.value
                                                             else faults.creating.value)
    ensures e.result.Ok? ==> name in e.catalog
    ensures catalog <= e.catalog && e.catalog - {name} == catalog - {name}
  {
    match faults.listing
    case Some(message) => Effect(catalog, [ListDatabases], Err(ServiceError(message)))
    case None =>
      if name in catalog then Effect(catalog, [ListDatabases], Ok(()))
      else
        match faults.creating
        case Some(message) => Effect(catalog, [ListDatabases, CreateDatabase(name)], Err(ServiceError(message)))
        case None => Effect(catalog + {name}, [ListDatabases, CreateDatabase(name)], Ok(()))
  }

  /** A second registration of the same name issues no creation and changes
      nothing. */
  lemma EnsureIdempotent(catalog: set<string>, name: string)
    ensures var first := EnsureDatabaseExists(catalog, name, Healthy);
            var second := EnsureDatabaseExists(first.catalog, name, Healthy);
            && second.result.Ok?
            && second.catalog == first.catalog
            && CreateDatabase(name) !in second.calls
  {
  }

  /** Two registrations of a name not yet present issue exactly one creation
      between them, and neither fails. */
  lemma EnsureTwiceCreatesOnce(catalog: set<string>, name: string)
    requires name !in catalog
    ensures var first := EnsureDatabaseExists(catalog, name, Healthy);
            var second := EnsureDatabaseExists(first.catalog, name, Healthy);
            && first.result.Ok? && second.result.Ok?
            && multiset(first.calls + second.calls)[CreateDatabase(name)] == 1
  {
    var first := EnsureDatabaseExists(catalog, name, Healthy);
    var second := EnsureDatabaseExists(first.catalog, name, Healthy);
    assert first.calls == [ListDatabases, CreateDatabase(name)];
    assert second.calls == [ListDatabases];
    assert first.calls + second.calls == [ListDatabases, CreateDatabase(name), ListDatabases];
  }

  /** A row of the catalog's database listing: the name and the description,
      which is the empty string when none was given. */
  datatype DatabaseEntry = DatabaseEntry(name: string, description: string)

  /** The listing returns at most this many databases unless told otherwise. */
  const ListingLimit: nat := 100

  /** The names a listing mentions. */
  function ListedNames(listing: seq<DatabaseEntry>): set<string>
  {
    set e | e in listing :: e.name
  }

  /** The presence test as written: the name is looked for among all cells,
      names and descriptions alike, of the listing's first ListingLimit rows.
      For a listing no longer than the limit it never misses a listed name,
      and it only ever succeeds on a name or a description in the listing. */
  predicate ListedAsWritten(listing: seq<DatabaseEntry>, name: string): (found: bool)
    ensures |listing| <= ListingLimit && name in ListedNames(listing) ==> found
    ensures found ==> exists e :: e in listing && (e.name == name || e.description == name)
  {
    exists i :: 0 <= i < |listing| && i < ListingLimit
                && (listing[i].name == name || listing[i].description == name)
  }

  /** As written, a description equal to the name counts as the database
      existing: no creation is issued, and the database is still absent. */
  lemma DescriptionMatchSkipsCreate()
    ensures var listing := [DatabaseEntry("analytics", "sales")];
            ListedAsWritten(listing, "sales") && "sales" !in ListedNames(listing)
  {
    var listing := [DatabaseEntry("analytics", "sales")];
    assert listing[0].description == "sales";
    assert ListedNames(listing) == {"analytics"};
  }

  /** As written, a database past the first ListingLimit rows counts as
      absent, so a creation is issued for a database that exists. */
  lemma TruncatedListingMissesDatabase()
    ensures var listing := seq(ListingLimit + 1, i => if i == ListingLimit then DatabaseEntry("sales", "")
                                                     else DatabaseEntry("other", ""));
            !ListedAsWritten(listing, "sales") && "sales" in ListedNames(listing)
  {
    var listing := seq(ListingLimit + 1, i => if i == ListingLimit then DatabaseEntry("sales", "")
                                             else DatabaseEntry("other", ""));
    assert listing[ListingLimit] == DatabaseEntry("sales", "");
    assert "sales" in ListedNames(listing);
    forall i | 0 <= i < |listing| && i < ListingLimit
      ensures listing[i].name != "sales" && listing[i].description != "sales"
    {
      assert listing[i] == DatabaseEntry("other", "");
    }
  }

  /** With the set of names in place of the listing, the registration
      always leaves a database of exactly that name behind. */
  lemma RegistrationByNameIsExact(listing: seq<DatabaseEntry>, name: string)
    ensures var e := EnsureDatabaseExists(ListedNames(listing), name, Healthy);
            e.result.Ok? && name in e.catalog
            && (CreateDatabase(name) in e.calls <==> forall d :: d in listing ==> d.name != name)
  {
  }
}

=== FILE: errors.dfy ===
/** The closed set of ways one invocation can fail. */
module Errors {

  /** Why a notification payload could not be read: a missing field (Python's
      KeyError, which names the field) or an empty Records list (IndexError). */
  datatype EventFault = MissingField(field: string) | EmptyRecords

  datatype Error =
    /** The notification lacks Records[0].s3.bucket.name or Records[0].s3.object.key. */
    | MalformedEvent(fault: EventFault)
    /** The object key has fewer than three '/'-separated segments; carries the key. */
    | InvalidKeyFormat(key: string)
    /** An object-store, conversion or catalog call raised; carries its message. */
    | ServiceError(message: string)
}

=== FILE: events.dfy ===
/** The event parser: reading the bucket and object key out of an object-store
    notification. Every nested field of the payload may be absent, and the
    list of records may be empty. */
module Events {
  import opened Results
  import opened Errors

  datatype BucketEntity = BucketEntity(name: Option<string>)
  datatype ObjectEntity = ObjectEntity(key: Option<string>)
  datatype S3Entity = S3Entity(bucket: Option<BucketEntity>, s3Object: Option<ObjectEntity>)
  datatype EventRecord = EventRecord(s3: Option<S3Entity>)
  datatype Event = Event(records: Option<seq<EventRecord>>)

  /** The object a notification is about: its bucket and its decoded key. */
  datatype Location = Location(bucket: string, key: string)

  /** The record a notification carries for a write of `rawKey` (still
      URL-encoded) into `bucket`. */
  function RecordFor(bucket: string, rawKey: string): EventRecord
  {
    EventRecord(Some(S3Entity(Some(BucketEntity(Some(bucket))), Some(ObjectEntity(Some(rawKey))))))
  }

  function Missing(field: string): Result<Location, Error>
  {
    Err(MalformedEvent(MissingField(field)))
  }

  /** Reads `Records[0].s3.bucket.name` and `Records[0].s3.object.key`, in
      that order, and decodes the key with `decode` (form-URL decoding of
      '+' and '%xx'). The first absent field, or an empty Records list, is
      the error; later records are never looked at. */
  function ParseS3Event(event: Event, decode: string -> string): (r: Result<Location, Error>)
    ensures r.Err? ==> r.error.MalformedEvent?
    ensures event.records.None? ==> r == Missing("Records")
    ensures event.records == Some([]) ==> r == Err(MalformedEvent(EmptyRecords))
    ensures r.Ok? ==> event.records.Some? && |event.records.value| > 0
    ensures r.Ok? ==> exists rawKey :: event.records.value[0] == RecordFor(r.value.bucket, rawKey)
                                       && r.value.key == decode(rawKey)
  {
    if event.records.None? then Missing("Records")
    else if |event.records.value| == 0 then Err(MalformedEvent(EmptyRecords))
    else
      var record := event.records.value[0];
      if record.s3.None? then Missing("s3")
      else
        var entity := record.s3.value;
        if entity.bucket.None? then Missing("bucket")
        else if entity.bucket.value.name.None? then Missing("name")
        else if entity.s3Object.None? then Missing("object")
        else if entity.s3Object.value.key.None? then Missing("key")
        else
          var rawKey := entity.s3Object.value.key.value;
          assert record == RecordFor(entity.bucket.value.name.value, rawKey);
          Ok(Location(entity.bucket.value.name.value, decode(rawKey)))
  }

  /** A notification whose first record is complete yields that record's
      bucket and decoded key, whatever records follow it. */
  lemma ParseNotification(bucket: string, rawKey: string, others: seq<EventRecord>, decode: string -> string)
    ensures ParseS3Event(Event(Some([RecordFor(bucket, rawKey)] + others)), decode)
            == Ok(Location(bucket, decode(rawKey)))
  {
  }

  /** Only the first record is read: dropping every later record changes
      neither the result nor the error. */
  lemma ParseReadsOnlyFirstRecord(first: EventRecord, others: seq<EventRecord>, decode: string -> string)
    ensures ParseS3Event(Event(Some([first] + others)), decode) == ParseS3Event(Event(Some([first])), decode)
  {
  }

  /** When a field is missing, the error names the first one absent in the
      order the fields are read (s3, bucket, name, object, key), whatever the
      fields read later hold and whatever records follow. */
  lemma ParseReportsFirstMissingField(bucketName: string,
                                      s3Object: Option<ObjectEntity>, others: seq<EventRecord>,
                                      decode: string -> string)
    ensures ParseS3Event(Event(Some([EventRecord(None)] + others)), decode) == Missing("s3")
    ensures ParseS3Event(Event(Some([EventRecord(Some(S3Entity(None, s3Object)))] + others)), decode)
            == Missing("bucket")
    ensures ParseS3Event(Event(Some([EventRecord(Some(S3Entity(Some(BucketEntity(None)), s3Object)))] + others)),
                         decode)
            == Missing("name")
    ensures ParseS3Event(Event(Some([EventRecord(Some(S3Entity(Some(BucketEntity(Some(bucketName))), None)))]
                                    + others)), decode)
            == Missing("object")
    ensures ParseS3Event(Event(Some([EventRecord(Some(S3Entity(Some(BucketEntity(Some(bucketName))),
                                                              Some(ObjectEntity(None)))))] + others)), decode)
            == Missing("key")
  {
  }
}

=== FILE: handler.dfy ===
/** The invocation entry point: parse the notification, derive the route,
    build the paths, read the CSV object, register the database, and append
    the rows to the destination table. Any failing step ends the invocation
    with that step's error; nothing is retried or rolled back. */
module Handler {
  import opened Results
  import opened Errors
  import opened Keys
  import opened Events
  import opened Services
  import opened Catalog

  /** The scheme prefix of object-store paths. */
  const Scheme: string := "s3://"

  /** The bucket every converted table is written under. */
  const CleanZoneBucket: string := "dataeng-clean-zone-om77"

  /** Where the CSV object is read from: the scheme, the bucket, a separator,
      then the key verbatim. */
  function InputPath(location: Location): (p: string)
    ensures |p| == |Scheme| + |location.bucket| + 1 + |location.key|
    ensures p[..|Scheme|] == Scheme
    ensures p[|Scheme|..|Scheme| + |location.bucket|] == location.bucket
    ensures p[|p| - |location.key| - 1] == Separator && p[|p| - |location.key|..] == location.key
  {
    Scheme + location.bucket + [Separator] + location.key
  }

  /** Where the converted rows are written: fixed by the route alone, under
      the destination bucket, ending in the table name. */
  function OutputPath(route: Route): (p: string)
    ensures var root := Scheme + CleanZoneBucket + [Separator];
            |p| == |root| + |route.database| + 1 + |route.table|
            && p[..|root|] == root
            && p[|root|..|root| + |route.database|] == route.database
            && p[|p| - |route.table| - 1] == Separator && p[|p| - |route.table|..] == route.table
  {
    Scheme + CleanZoneBucket + [Separator] + route.database + [Separator] + route.table
  }

  /** The services the handler depends on: key decoding, the CSV read, the
      catalog's failures, and the columnar write. A failing read or write
      reports its message. */
  datatype Env = Env(decode: string -> string,
                     readCsv: string -> Result<Frame, string>,
                     catalogFaults: CatalogFaults,
                     toParquet: WriteRequest -> Result<WriteResult, string>)

  /** The write the handler issues for a frame and route: an append of the
      frame as a dataset registered under the route's database and table, at
      the route's output path. */
  function AppendRequest(frame: Frame, route: Route): (r: WriteRequest)
    ensures r.frame == frame && r.dataset && r.mode == Append
    ensures r.database == route.database && r.table == route.table && r.path == OutputPath(route)
  {
    WriteRequest(frame, OutputPath(route), true, route.database, route.table, Append)
  }

  /** What an invocation reports for the write service's answer: its result,
      or its message as a service error. */
  function Reported(answer: Result<WriteResult, string>): Result<WriteResult, Error>
  {
    match answer
    case Ok(written) => Ok(written)
    case Err(message) => Err(ServiceError(message))
  }

  /** Registers the route's database, then appends the frame to its table.
      The write is issued last, and only once the database is in the catalog. */
  function RegisterAndWrite(catalog: set<string>, frame: Frame, route: Route, env: Env): (e: Effect<WriteResult>)
    ensures |e.calls| > 0 && e.calls[0] == ListDatabases
    ensures forall i :: 0 <= i < |e.calls| && e.calls[i].ToParquet? ==>
              i == |e.calls| - 1 && e.calls[i].request == AppendRequest(frame, route)
    ensures ToParquet(AppendRequest(frame, route)) in e.calls ==> route.database in e.catalog
    ensures e.result.Ok? ==> e.calls[|e.calls| - 1] == ToParquet(AppendRequest(frame, route))
    ensures forall i :: 0 <= i < |e.calls| && e.calls[i].ToParquet? ==>
              e.result == Reported(env.toParquet(e.calls[i].request))
    ensures env.catalogFaults.listing.Some? ==>
              e.result == Err(ServiceError(env.catalogFaults.listing.value)) && e.calls == [ListDatabases]
    ensures var registration := EnsureDatabaseExists(catalog, route.database, env.catalogFaults);
            registration.result.Err? ==> e == Effect(catalog, registration.calls, Err(registration.result.error))
    ensures e.result.Err? ==> e.result.error.ServiceError?
    ensures catalog <= e.catalog && e.catalog - {route.database} == catalog - {route.database}
  {
    var registration := EnsureDatabaseExists(catalog, route.database, env.catalogFaults);
    if registration.result.Err? then
      Effect(registration.catalog, registration.calls, Err(registration.result.error))
    else
      var request := AppendRequest(frame, route);
      Effect(registration.catalog, registration.calls + [ToParquet(request)], Reported(env.toParquet(request)))
  }

  /** Reads the CSV object, then registers and writes. A failed read issues
      nothing else and changes nothing. */
  function Load(catalog: set<string>, input: string, route: Route, env: Env): (e: Effect<WriteResult>)
    ensures |e.calls| > 0 && e.calls[0] == ReadCsv(input)
    ensures env.readCsv(input).Err? ==> e.calls == [ReadCsv(input)] && e.catalog == catalog && e.result.Err?
    ensures ListDatabases in e.calls ==> env.readCsv(input).Ok?
    ensures forall i :: 0 <= i < |e.calls| && e.calls[i].ToParquet? ==>
              && i == |e.calls| - 1
              && e.calls[i].request == AppendRequest(env.readCsv(input).value, route)
              && e.result == Reported(env.toParquet(e.calls[i].request))
              && (env.catalogFaults.creating.Some? ==> route.database in catalog)
    ensures (exists i :: 0 <= i < |e.calls| && e.calls[i].ToParquet?) ==> route.database in e.catalog
    ensures e.result.Ok? ==> e.calls[|e.calls| - 1].ToParquet?
    ensures env.catalogFaults.listing.Some? ==> e.result.Err? && forall c :: c in e.calls ==> !c.ToParquet?
    ensures env.catalogFaults.creating.Some? ==> e.catalog == catalog
    ensures e.result.Err? ==> e.result.error.ServiceError?
    ensures catalog <= e.catalog && e.catalog - {route.database} == catalog - {route.database}
  {
    match env.readCsv(input)
    case Err(message) => Effect(catalog, [ReadCsv(input)], Err(ServiceError(message)))
    case Ok(frame) =>
      var rest := RegisterAndWrite(catalog, frame, route, env);
      Effect(rest.catalog, [ReadCsv(input)] + rest.calls, rest.result)
  }

  /** One invocation against a catalog. Event and key failures touch nothing;
      a failed read issues only the read; registration happens only after a
      successful read, and the write only after a successful registration. */
  function LambdaHandler(event: Event, catalog: set<string>, env: Env): (e: Effect<WriteResult>)
    ensures catalog <= e.catalog && |e.catalog - catalog| <= 1
    ensures e.result.Err? && (e.result.error.MalformedEvent? || e.result.error.InvalidKeyFormat?)
            ==> e.calls == [] && e.catalog == catalog
    ensures ListDatabases !in e.calls ==> e.catalog == catalog && e.result.Err?
    ensures |e.calls| > 0 ==> e.calls[0].ReadCsv?
    ensures ListDatabases in e.calls ==> env.readCsv(e.calls[0].path).Ok?
    ensures forall i :: 0 <= i < |e.calls| && e.calls[i].ToParquet? ==>
              && i == |e.calls| - 1
              && e.calls[i].request.database in e.catalog
              && e.calls[i].request.mode == Append
              && e.calls[i].request.path == OutputPath(Route(e.calls[i].request.database, e.calls[i].request.table))
              && e.result == Reported(env.toParquet(e.calls[i].request))
              && (env.catalogFaults.creating.Some? ==> e.calls[i].request.database in catalog)
    ensures e.result.Ok? ==> |e.calls| > 0 && e.calls[|e.calls| - 1].ToParquet?
    ensures env.catalogFaults.listing.Some? ==> e.result.Err? && forall c :: c in e.calls ==> !c.ToParquet?
    ensures env.catalogFaults.creating.Some? ==> e.catalog == catalog
    ensures var parsed := ParseS3Event(event, env.decode);
            parsed.Ok? && ExtractDbAndTable(parsed.value.key).Ok? ==>
              && |e.calls| > 0 && e.calls[0] == ReadCsv(InputPath(parsed.value))
              && forall i :: 0 <= i < |e.calls| && e.calls[i].ToParquet? ==>
                   && env.readCsv(InputPath(parsed.value)) == Ok(e.calls[i].request.frame)
                   && e.calls[i].request == AppendRequest(e.calls[i].request.frame,
                                                          ExtractDbAndTable(parsed.value.key).value)
    ensures var parsed := ParseS3Event(event, env.decode);
            parsed.Err? ==> e == Effect(catalog, [], Err(parsed.error))
    ensures var parsed := ParseS3Event(event, env.decode);
            parsed.Ok? && ExtractDbAndTable(parsed.value.key).Err? ==>
              e == Effect(catalog, [], Err(InvalidKeyFormat(parsed.value.key)))
  {
    assert catalog - catalog == {};
    match ParseS3Event(event, env.decode)
    case Err(error) => Effect(catalog, [], Err(error))
    case Ok(location) =>
      match ExtractDbAndTable(location.key)
      case Err(error) => Effect(catalog, [], Err(error))
      case Ok(route) =>
        LoadAsInvocation(catalog, location, route, env);
        Load(catalog, InputPath(location), route, env)
  }

  /** The load stage for a located object and its route, stated in the
      terms the invocation's contract uses. */
  lemma LoadAsInvocation(catalog: set<string>, location: Location, route: Route, env: Env)
    ensures var e := Load(catalog, InputPath(location), route, env);
            && catalog <= e.catalog && |e.catalog - catalog| <= 1
            && (e.result.Err? ==> e.result.error.ServiceError?)
            && (ListDatabases !in e.calls ==> e.catalog == catalog && e.result.Err?)
            && |e.calls| > 0 && e.calls[0] == ReadCsv(InputPath(location))
            && (ListDatabases in e.calls ==> env.readCsv(InputPath(location)).Ok?)
            && (forall i :: 0 <= i < |e.calls| && e.calls[i].ToParquet? ==>
                  && i == |e.calls| - 1
                  && e.calls[i].request.database == route.database
                  && e.calls[i].request.database in e.catalog
                  && env.readCsv(InputPath(location)) == Ok(e.calls[i].request.frame)
                  && e.calls[i].request == AppendRequest(e.calls[i].request.frame, route)
                  && e.result == Reported(env.toParquet(e.calls[i].request))
                  && (env.catalogFaults.creating.Some? ==> route.database in catalog))
            && (e.result.Ok? ==> e.calls[|e.calls| - 1].ToParquet?)
            && (env.catalogFaults.listing.Some? ==> e.result.Err? && forall c :: c in e.calls ==> !c.ToParquet?)
            && (env.catalogFaults.creating.Some? ==> e.catalog == catalog)
  {
    var e := Load(catalog, InputPath(location), route, env);
    assert e.catalog - catalog <= {route.database};
  }

  /** Splitting `a//b/rest` for separator-free `a` and `b`. */
  lemma SplitAfterAuthority(a: string, b: string, rest: string)
    requires Separator !in a && Separator !in b
    ensures Split(a + [Separator, Separator] + b + [Separator] + rest, Separator)
            == [a, [], b] + Split(rest, Separator)
  {
    var tail := b + [Separator] + rest;
    SplitAfterSegment(b, Separator, rest);
    assert [] + [Separator] + tail == [Separator] + tail;
    SplitAfterSegment([], Separator, tail);
    SplitAfterSegment(a, Separator, [Separator] + tail);
    assert a + [Separator, Separator] + b + [Separator] + rest == a + [Separator] + ([Separator] + tail);
  }

  /** The segments of the input path: the scheme's two, the bucket, then the
      key's own segments. */
  lemma InputPathSegments(location: Location)
    requires Separator !in location.bucket
    ensures Split(InputPath(location), Separator) == ["s3:", "", location.bucket] + Split(location.key, Separator)
  {
    assert Scheme == "s3:" + [Separator, Separator];
    SplitAfterAuthority("s3:", location.bucket, location.key);
  }

  /** The segments of the output path: the scheme's two, the destination
      bucket, the database and the table. */
  lemma OutputPathSegments(route: Route)
    requires Separator !in route.database && Separator !in route.table
    ensures Split(OutputPath(route), Separator) == ["s3:", "", CleanZoneBucket, route.database, route.table]
  {
    var rest := route.database + [Separator] + route.table;
    assert Scheme == "s3:" + [Separator, Separator];
    assert OutputPath(route) == "s3:" + [Separator, Separator] + CleanZoneBucket + [Separator] + rest;
    SplitAfterAuthority("s3:", CleanZoneBucket, rest);
    SplitNoSeparator(route.database, Separator);
    SplitNoSeparator(route.table, Separator);
    SplitAround(route.database, Separator, route.table);
  }

  /** The write request's path ends in the route's database and table, as
      whole segments, whenever those names contain no separator. */
  lemma AppendRequestSegments(frame: Frame, route: Route)
    ensures Separator !in route.database && Separator !in route.table ==>
              var parts := Split(AppendRequest(frame, route).path, Separator);
              |parts| == 5 && parts[3] == route.database && parts[4] == route.table
  {
    if Separator !in route.database && Separator !in route.table {
      OutputPathSegments(route);
    }
  }

  /** The output path determines the route: different routes are written to
      different places. */
  lemma OutputPathDeterminesRoute(route1: Route, route2: Route)
    requires Separator !in route1.database && Separator !in route1.table
    requires Separator !in route2.database && Separator !in route2.table
    requires OutputPath(route1) == OutputPath(route2)
    ensures route1 == route2
  {
    OutputPathSegments(route1);
    OutputPathSegments(route2);
    var p1 := Split(OutputPath(route1), Separator);
    assert route1.database == p1[3] && route1.table == p1[4];
  }

  /** The input path determines the object it names, for bucket names
      without a separator. */
  lemma InputPathDeterminesLocation(location1: Location, location2: Location)
    requires Separator !in location1.bucket && Separator !in location2.bucket
    requires InputPath(location1) == InputPath(location2)
    ensures location1 == location2
  {
    InputPathSegments(location1);
    InputPathSegments(location2);
    var p := Split(InputPath(location1), Separator);
    assert location1.bucket == p[2] == location2.bucket;
    assert Split(location1.key, Separator) == p[3..] == Split(location2.key, Separator);
    JoinSplit(location1.key, Separator);
    JoinSplit(location2.key, Separator);
  }

  /** The route read off the input path is the route of the key: the
      bucket and scheme in front never shift which segments are used. */
  lemma RouteOfInputPath(location: Location)
    requires Separator !in location.bucket
    requires ExtractDbAndTable(location.key).Ok?
    ensures ExtractDbAndTable(InputPath(location)) == ExtractDbAndTable(location.key)
  {
    InputPathSegments(location);
    var parts := Split(location.key, Separator);
    var route := ExtractDbAndTable(location.key).value;
    var n := |parts|;
    assert parts == parts[..n - 3] + [route.database, route.table, parts[n - 1]];
    ExtractFromSegments(location.key, parts[..n - 3], route.database, route.table, parts[n - 1]);
    assert ["s3:", "", location.bucket] + parts
        == (["s3:", "", location.bucket] + parts[..n - 3]) + [route.database, route.table, parts[n - 1]];
    ExtractFromSegments(InputPath(location), ["s3:", "", location.bucket] + parts[..n - 3],
                        route.database, route.table, parts[n - 1]);
  }

  /** End to end: a notification for an object whose key routes to a
      database and table, with every service answering, reads the object,
      registers the database (creating it only when absent), and appends
      the rows under the destination path of that route. */
  lemma HandlerSucceeds(bucket: string, rawKey: string, others: seq<EventRecord>, catalog: set<string>,
                        env: Env, route: Route, frame: Frame, written: WriteResult)
    requires ExtractDbAndTable(env.decode(rawKey)) == Ok(route)
    requires env.readCsv(InputPath(Location(bucket, env.decode(rawKey)))) == Ok(frame)
    requires env.catalogFaults == Healthy
    requires env.toParquet(AppendRequest(frame, route)) == Ok(written)
    ensures var e := LambdaHandler(Event(Some([RecordFor(bucket, rawKey)] + others)), catalog, env);
            && e.result == Ok(written)
            && e.catalog == catalog + {route.database}
            && e.calls == [ReadCsv(InputPath(Location(bucket, env.decode(rawKey)))), ListDatabases]
                          + (if route.database in catalog then [] else [CreateDatabase(route.database)])
                          + [ToParquet(AppendRequest(frame, route))]
  {
    var location := Location(bucket, env.decode(rawKey));
    var event := Event(Some([RecordFor(bucket, rawKey)] + others));
    ParseNotification(bucket, rawKey, others, env.decode);
    assert LambdaHandler(event, catalog, env) == Load(catalog, InputPath(location), route, env);
    LoadSucceeds(catalog, InputPath(location), route, env, frame, written);
  }

  /** The load stage with every service answering. */
  lemma LoadSucceeds(catalog: set<string>, input: string, route: Route, env: Env, frame: Frame, written: WriteResult)
    requires env.readCsv(input) == Ok(frame)
    requires env.catalogFaults == Healthy
    requires env.toParquet(AppendRequest(frame, route)) == Ok(written)
    ensures var e := Load(catalog, input, route, env);
            && e.result == Ok(written)
            && e.catalog == catalog + {route.database}
            && e.calls == [ReadCsv(input), ListDatabases]
                          + (if route.database in catalog then [] else [CreateDatabase(route.database)])
                          + [ToParquet(AppendRequest(frame, route))]
  {
    var registration := EnsureDatabaseExists(catalog, route.database, Healthy);
    assert registration.calls
        == [ListDatabases] + (if route.database in catalog then [] else [CreateDatabase(route.database)]);
  }

  /** A failed CSV read ends the invocation before the catalog is consulted:
      the read is the only call and the catalog is unchanged. */
  lemma HandlerReadFailureLeavesCatalog(event: Event, catalog: set<string>, env: Env)
    requires ParseS3Event(event, env.decode).Ok?
    requires ExtractDbAndTable(ParseS3Event(event, env.decode).value.key).Ok?
    requires env.readCsv(InputPath(ParseS3Event(event, env.decode).value)).Err?
    ensures var e := LambdaHandler(event, catalog, env);
            && e.catalog == catalog
            && e.calls == [ReadCsv(InputPath(ParseS3Event(event, env.decode).value))]
            && e.result == Err(ServiceError(env.readCsv(InputPath(ParseS3Event(event, env.decode).value)).error))
  {
  }

  /** A failed write is not rolled back: the database registered before it
      stays in the catalog. */
  lemma HandlerWriteFailureKeepsDatabase(event: Event, catalog: set<string>, env: Env)
    requires ParseS3Event(event, env.decode).Ok?
    requires ExtractDbAndTable(ParseS3Event(event, env.decode).value.key).Ok?
    requires env.readCsv(InputPath(ParseS3Event(event, env.decode).value)).Ok?
    requires env.catalogFaults == Healthy
    requires var route := ExtractDbAndTable(ParseS3Event(event, env.decode).value.key).value;
             var frame := env.readCsv(InputPath(ParseS3Event(event, env.decode).value)).value;
             env.toParquet(AppendRequest(frame, route)).Err?
    ensures var route := ExtractDbAndTable(ParseS3Event(event, env.decode).value.key).value;
            var e := LambdaHandler(event, catalog, env);
            e.result.Err? && e.result.error.ServiceError? && route.database in e.catalog
  {
  }

  /** Once the notification parses and its key routes, the invocation is
      the load stage for that object and route. */
  lemma HandlerIsLoad(event: Event, catalog: set<string>, env: Env)
    requires ParseS3Event(event, env.decode).Ok?
    requires ExtractDbAndTable(ParseS3Event(event, env.decode).value.key).Ok?
    ensures LambdaHandler(event, catalog, env)
            == Load(catalog, InputPath(ParseS3Event(event, env.decode).value),
                    ExtractDbAndTable(ParseS3Event(event, env.decode).value.key).value, env)
  {
  }

  /** A load for a database already in the catalog creates nothing and
      changes nothing, whatever the object store answers. */
  lemma LoadOfPresentDatabase(catalog: set<string>, input: string, route: Route, env: Env)
    requires env.catalogFaults == Healthy
    requires route.database in catalog
    ensures var e := Load(catalog, input, route, env);
            e.catalog == catalog && forall c :: c in e.calls ==> !c.CreateDatabase?
  {
    if env.readCsv(input).Ok? {
      var registration := EnsureDatabaseExists(catalog, route.database, Healthy);
      assert registration.calls == [ListDatabases];
    }
  }

  /** A second invocation for the same notification, against the catalog the
      first one left, with the services answering as they did the first time,
      creates no database and leaves the catalog as it is. */
  lemma SecondInvocationCreatesNothing(event: Event, catalog: set<string>, env: Env)
    requires env.catalogFaults == Healthy
    ensures var first := LambdaHandler(event, catalog, env);
            var second := LambdaHandler(event, first.catalog, env);
            && second.catalog == first.catalog
            && forall c :: c in second.calls ==> !c.CreateDatabase?
  {
    var parsed := ParseS3Event(event, env.decode);
    if parsed.Ok? && ExtractDbAndTable(parsed.value.key).Ok? {
      var route := ExtractDbAndTable(parsed.value.key).value;
      var input := InputPath(parsed.value);
      HandlerIsLoad(event, catalog, env);
      var first := Load(catalog, input, route, env);
      if env.readCsv(input).Ok? {
        assert route.database in first.catalog;
        HandlerIsLoad(event, first.catalog, env);
        LoadOfPresentDatabase(first.catalog, input, route, env);
      }
    }
  }

  /** A platform retry of the same notification, once the first invocation
      got as far as the catalog, creates no database and changes nothing in
      the catalog, whatever the object store answers the second time. */
  lemma RetryCreatesNothing(event: Event, catalog: set<string>, env: Env, retryEnv: Env)
    requires env.catalogFaults == Healthy && retryEnv.catalogFaults == Healthy
    requires retryEnv.decode == env.decode
    requires ListDatabases in LambdaHandler(event, catalog, env).calls
    ensures var first := LambdaHandler(event, catalog, env);
            var second := LambdaHandler(event, first.catalog, retryEnv);
            && second.catalog == first.catalog
            && forall c :: c in second.calls ==> !c.CreateDatabase?
  {
    var parsed := ParseS3Event(event, env.decode);
    assert parsed.Ok? && ExtractDbAndTable(parsed.value.key).Ok?;
    var route := ExtractDbAndTable(parsed.value.key).value;
    var input := InputPath(parsed.value);
    HandlerIsLoad(event, catalog, env);
    var first := Load(catalog, input, route, env);
    assert env.readCsv(input).Ok?;
    assert route.database in first.catalog;
    HandlerIsLoad(event, first.catalog, retryEnv);
    LoadOfPresentDatabase(first.catalog, input, route, retryEnv);
  }
}

=== FILE: keys.dfy ===
/** The path interpreter: how an object key names the catalog database and
    table its rows are loaded into. Keys follow the convention
    `.../<database>/<table>/<file name>`. */
module Keys {
  import opened Results
  import opened Errors

  /** The separator of object-key segments. */
  const Separator: char := '/'

  /** `s.split(sep)` as Python computes it for a one-character separator:
      every occurrence of `sep` ends a segment, empty segments are kept, and
      the empty string splits into one empty segment. */
  function Split(s: string, sep: char): (parts: seq<string>)
    ensures |parts| > 0
    decreases |s|
  {
    if |s| == 0 then [[]]
    else
      var rest := Split(s[1..], sep);
      if s[0] == sep then [[]] + rest
      else [[s[0]] + rest[0]] + rest[1..]
  }

  /** `sep.join(parts)`: the segments with one separator between neighbours. */
  function Join(parts: seq<string>, sep: char): string
    requires |parts| > 0
  {
    if |parts| == 1 then parts[0] else parts[0] + [sep] + Join(parts[1..], sep)
  }

  /** One step of a split: a leading separator closes an empty segment,
      any other character starts the first segment of the rest. */
  lemma SplitCons(c: char, t: string, sep: char)
    ensures Split([c] + t, sep)
            == if c == sep then [[]] + Split(t, sep) else [[c] + Split(t, sep)[0]] + Split(t, sep)[1..]
  {
    var s := [c] + t;
    assert s[0] == c;
    assert s[1..] == t;
  }

  /** A split has one more segment than the string has separators. */
  lemma {:induction false} SplitLength(s: string, sep: char)
    ensures |Split(s, sep)| == multiset(s)[sep] + 1
    decreases |s|
  {
    if |s| > 0 {
      var c, t := s[0], s[1..];
      assert s == [c] + t;
      assert multiset(s) == multiset([c]) + multiset(t);
      SplitLength(t, sep);
      SplitCons(c, t, sep);
    }
  }

  /** No segment of a split contains the separator. */
  lemma {:induction false} SplitSegmentsFree(s: string, sep: char)
    ensures forall i :: 0 <= i < |Split(s, sep)| ==> sep !in Split(s, sep)[i]
    decreases |s|
  {
    if |s| > 0 {
      var c, t := s[0], s[1..];
      assert s == [c] + t;
      SplitSegmentsFree(t, sep);
      SplitCons(c, t, sep);
      var rest := Split(t, sep);
      if c != sep {
        var parts := [[c] + rest[0]] + rest[1..];
        forall i | 0 <= i < |parts|
          ensures sep !in parts[i]
        {
          if i > 0 {
            assert parts[i] == rest[i];
          }
        }
      }
    }
  }

  /** A string without the separator is a single segment. */
  lemma {:induction false} SplitNoSeparator(s: string, sep: char)
    requires sep !in s
    ensures Split(s, sep) == [s]
    decreases |s|
  {
    if |s| > 0 {
      var c, t := s[0], s[1..];
      assert s == [c] + t;
      SplitNoSeparator(t, sep);
      SplitCons(c, t, sep);
    }
  }

  /** Extending the first segment commutes with appending further segments. */
  lemma PrependToFirst(c: char, ra: seq<string>, rb: seq<string>)
    requires |ra| > 0
    ensures [[c] + (ra + rb)[0]] + (ra + rb)[1..] == ([[c] + ra[0]] + ra[1..]) + rb
  {
    assert (ra + rb)[0] == ra[0];
    assert (ra + rb)[1..] == ra[1..] + rb;
  }

  /** Splitting distributes over one occurrence of the separator. */
  lemma {:induction false} SplitAround(a: string, sep: char, b: string)
    ensures Split(a + [sep] + b, sep) == Split(a, sep) + Split(b, sep)
    decreases |a|
  {
    if |a| == 0 {
      assert a + [sep] + b == [sep] + b;
      SplitCons(sep, b, sep);
    } else {
      var c, t := a[0], a[1..];
      assert a == [c] + t;
      assert a + [sep] + b == [c] + (t + [sep] + b);
      SplitCons(c, t + [sep] + b, sep);
      SplitCons(c, t, sep);
      SplitAround(t, sep, b);
      if c != sep {
        PrependToFirst(c, Split(t, sep), Split(b, sep));
      }
    }
  }

  /** A separator-free segment followed by the separator splits off as one
      whole segment. */
  lemma SplitAfterSegment(a: string, sep: char, rest: string)
    requires sep !in a
    ensures Split(a + [sep] + rest, sep) == [a] + Split(rest, sep)
  {
    SplitNoSeparator(a, sep);
    SplitAround(a, sep, rest);
  }

  /** Joining the segments of a split gives the string back. */
  lemma {:induction false} JoinSplit(s: string, sep: char)
    ensures Join(Split(s, sep), sep) == s
    decreases |s|
  {
    if |s| > 0 {
      var c, t := s[0], s[1..];
      assert s == [c] + t;
      JoinSplit(t, sep);
      SplitCons(c, t, sep);
      var rest := Split(t, sep);
      if c == sep {
        assert ([[]] + rest)[1..] == rest;
      } else {
        var parts := [[c] + rest[0]] + rest[1..];
        if |rest| > 1 {
          assert parts[1..] == rest[1..];
        }
      }
    }
  }

  /** Splitting a join of separator-free segments gives the segments back. */
  lemma {:induction false} SplitJoin(parts: seq<string>, sep: char)
    requires |parts| > 0
    requires forall i :: 0 <= i < |parts| ==> sep !in parts[i]
    ensures Split(Join(parts, sep), sep) == parts
    decreases |parts|
  {
    SplitNoSeparator(parts[0], sep);
    if |parts| > 1 {
      SplitJoin(parts[1..], sep);
      SplitAround(parts[0], sep, Join(parts[1..], sep));
      assert parts == [parts[0]] + parts[1..];
    }
  }

  /** Joining two non-empty runs of segments puts one separator between them. */
  lemma {:induction false} JoinAppend(a: seq<string>, b: seq<string>, sep: char)
    requires |a| > 0 && |b| > 0
    ensures Join(a + b, sep) == Join(a, sep) + [sep] + Join(b, sep)
    decreases |a|
  {
    if |a| > 1 {
      assert (a + b)[1..] == a[1..] + b;
      JoinAppend(a[1..], b, sep);
    } else {
      assert (a + b)[1..] == b;
    }
  }

  /** Where an object's rows are loaded: a catalog database and a table in it. */
  datatype Route = Route(database: string, table: string)

  /** The database is the third-from-last segment of the key and the table the
      second-from-last; a key with fewer than three segments is rejected with
      an error that carries the key. */
  function ExtractDbAndTable(key: string): (r: Result<Route, Error>)
    ensures r.Err? <==> multiset(key)[Separator] < 2
    ensures r.Err? ==> r.error == InvalidKeyFormat(key)
    ensures r.Ok? ==> Separator !in r.value.database && Separator !in r.value.table
  {
    var parts := Split(key, Separator);
    SplitLength(key, Separator);
    SplitSegmentsFree(key, Separator);
    if |parts| < 3 then Err(InvalidKeyFormat(key))
    else Ok(Route(parts[|parts| - 3], parts[|parts| - 2]))
  }

  /** The route is read off the last three segments of the split. */
  lemma ExtractFromSegments(key: string, front: seq<string>, database: string, table: string, file: string)
    requires Split(key, Separator) == front + [database, table, file]
    ensures ExtractDbAndTable(key) == Ok(Route(database, table))
  {
    var parts := front + [database, table, file];
    assert parts[|parts| - 3] == database;
    assert parts[|parts| - 2] == table;
  }

  /** The three separator-free segments `database/table/file` split apart. */
  lemma SplitThree(database: string, table: string, file: string)
    requires Separator !in database && Separator !in table && Separator !in file
    ensures Split(database + [Separator] + table + [Separator] + file, Separator) == [database, table, file]
  {
    SplitNoSeparator(database, Separator);
    SplitNoSeparator(table, Separator);
    SplitNoSeparator(file, Separator);
    SplitAround(table, Separator, file);
    assert database + [Separator] + table + [Separator] + file
        == database + [Separator] + (table + [Separator] + file);
    SplitAround(database, Separator, table + [Separator] + file);
  }

  /** A key that ends in `<database>/<table>/<file name>`, whole segments
      each, is routed to exactly that database and table. */
  lemma ExtractFromDecomposition(head: string, database: string, table: string, file: string)
    requires head == [] || head[|head| - 1] == Separator
    requires Separator !in database && Separator !in table && Separator !in file
    ensures ExtractDbAndTable(head + database + [Separator] + table + [Separator] + file)
            == Ok(Route(database, table))
  {
    var tail := database + [Separator] + table + [Separator] + file;
    var key := head + database + [Separator] + table + [Separator] + file;
    assert key == head + tail;
    SplitThree(database, table, file);
    if head == [] {
      assert key == tail;
      ExtractFromSegments(key, [], database, table, file);
    } else {
      var h := head[..|head| - 1];
      assert head == h + [Separator];
      assert key == h + [Separator] + tail;
      SplitAround(h, Separator, tail);
      ExtractFromSegments(key, Split(h, Separator), database, table, file);
    }
  }

  /** A join of at least three segments ends in the last three, joined, after
      a head that is empty or ends in the separator. */
  lemma JoinLastThree(parts: seq<string>, sep: char) returns (head: string)
    requires |parts| >= 3
    ensures head == [] || head[|head| - 1] == sep
    ensures Join(parts, sep)
            == head + parts[|parts| - 3] + [sep] + parts[|parts| - 2] + [sep] + parts[|parts| - 1]
  {
    var n := |parts|;
    var last := parts[n - 3..];
    assert last[0] == parts[n - 3];
    assert last[1..] == [parts[n - 2], parts[n - 1]];
    assert last[1..][1..] == [parts[n - 1]];
    assert Join(last[1..][1..], sep) == parts[n - 1];
    assert Join(last[1..], sep) == parts[n - 2] + [sep] + parts[n - 1];
    assert Join(last, sep) == parts[n - 3] + [sep] + (parts[n - 2] + [sep] + parts[n - 1]);
    if n == 3 {
      head := [];
      assert parts == last;
    } else {
      head := Join(parts[..n - 3], sep) + [sep];
      assert parts == parts[..n - 3] + last;
      JoinAppend(parts[..n - 3], last, sep);
    }
  }

  /** Conversely, every accepted key ends in `<database>/<table>/<file name>`,
      whole segments each, for the route it is given. */
  lemma ExtractDecomposes(key: string) returns (head: string, file: string)
    requires ExtractDbAndTable(key).Ok?
    ensures head == [] || head[|head| - 1] == Separator
    ensures Separator !in file
    ensures key == head + ExtractDbAndTable(key).value.database + [Separator]
                   + ExtractDbAndTable(key).value.table + [Separator] + file
  {
    var parts := Split(key, Separator);
    JoinSplit(key, Separator);
    SplitSegmentsFree(key, Separator);
    file := parts[|parts| - 1];
    head := JoinLastThree(parts, Separator);
  }

  /** The file name never influences the route: two objects in the same
      directory go to the same database and table, or are both rejected. */
  lemma ExtractIgnoresFileName(dir: string, file1: string, file2: string)
    requires Separator !in file1 && Separator !in file2
    ensures ExtractDbAndTable(dir + [Separator] + file1).Ok?
            <==> ExtractDbAndTable(dir + [Separator] + file2).Ok?
    ensures ExtractDbAndTable(dir + [Separator] + file1).Ok?
            ==> ExtractDbAndTable(dir + [Separator] + file1) == ExtractDbAndTable(dir + [Separator] + file2)
  {
    SplitNoSeparator(file1, Separator);
    SplitNoSeparator(file2, Separator);
    SplitAround(dir, Separator, file1);
    SplitAround(dir, Separator, file2);
    var d := Split(dir, Separator);
    var p1 := d + [file1];
    var p2 := d + [file2];
    if |p1| >= 3 {
      assert p1[|p1| - 3] == d[|d| - 2] == p2[|p2| - 3];
      assert p1[|p1| - 2] == d[|d| - 1] == p2[|p2| - 2];
    }
  }

  /** Worked route: the usual layout of a landed object. */
  lemma ExampleRoute()
    ensures ExtractDbAndTable("raw/sales/orders/x.csv") == Ok(Route("sales", "orders"))
  {
    assert "raw/sales/orders/x.csv" == "raw/" + "sales" + [Separator] + "orders" + [Separator] + "x.csv";
    ExtractFromDecomposition("raw/", "sales", "orders", "x.csv");
  }

  /** Worked route: empty segments are kept, so the table name may be empty. */
  lemma ExampleEmptyTable()
    ensures ExtractDbAndTable("a//f.csv") == Ok(Route("a", ""))
  {
    assert "a//f.csv" == "" + "a" + [Separator] + "" + [Separator] + "f.csv";
    ExtractFromDecomposition("", "a", "", "f.csv");
  }

  /** Worked rejection: a bare file name is one segment. */
  lemma ExampleOneSegment()
    ensures ExtractDbAndTable("file.csv") == Err(InvalidKeyFormat("file.csv"))
  {
    SplitNoSeparator("file.csv", Separator);
  }

  /** A file directly under one directory is two segments, and rejected. */
  lemma ExtractRejectsTwoSegments(dir: string, file: string)
    requires Separator !in dir && Separator !in file
    ensures ExtractDbAndTable(dir + [Separator] + file) == Err(InvalidKeyFormat(dir + [Separator] + file))
  {
    SplitNoSeparator(dir, Separator);
    SplitNoSeparator(file, Separator);
    SplitAround(dir, Separator, file);
  }

  /** Worked rejection: a file directly under one directory. */
  lemma ExampleTwoSegments()
    ensures ExtractDbAndTable("a/file.csv") == Err(InvalidKeyFormat("a/file.csv"))
  {
    assert "a/file.csv" == "a" + [Separator] + "file.csv";
    ExtractRejectsTwoSegments("a", "file.csv");
  }
}

=== FILE: results.dfy ===
/** The optional-value and success-or-error wrappers shared by every step
    of the handler; steps take them apart with `match`. */
module Results {

  /** An optional value: a field of the notification payload that may be absent. */
  datatype Option<+T> = None | Some(value: T)

  /** The outcome of a step: a value, or the error that aborts the invocation. */
  datatype Result<+T, +E> = Ok(value: T) | Err(error: E)
}

=== FILE: services.dfy ===
/** The external services one invocation talks to, seen only through the
    calls it issues and the replies it gets: the object store (CSV read,
    columnar write) and the metadata catalog (list and create databases). */
module Services {
  import opened Results
  import opened Errors

  /** The in-memory table a CSV object is read into; its contents pass
      through the handler untouched. */
  datatype Frame = Frame(columns: seq<string>, rows: seq<seq<string>>)

  /** How a columnar write treats data already at its destination. */
  datatype WriteMode = Append | Overwrite | OverwritePartitions

  /** The arguments of the columnar write: the frame, the destination path,
      whether it is a dataset, the catalog database and table it is
      registered under, and the write mode. */
  datatype WriteRequest = WriteRequest(frame: Frame, path: string, dataset: bool,
                                       database: string, table: string, mode: WriteMode)

  /** What the columnar write reports: the object paths it wrote. */
  datatype WriteResult = WriteResult(paths: seq<string>)

  /** One call to an external service, in the order issued. */
  datatype Call =
    | ReadCsv(path: string)
    | ListDatabases
    | CreateDatabase(name: string)
    | ToParquet(request: WriteRequest)

  /** The effect of a step on the world it can change: the catalog's set of
      database names afterwards, the calls it issued, and its result. */
  datatype Effect<+T> = Effect(catalog: set<string>, calls: seq<Call>, result: Result<T, Error>)
}
